=== FILE: README.md ===
# Hylo comment, reply-address, project-policy and login logic in Dafny

This project models four pieces of logic from the Hylo node server.

1. **Comment store** (`comments.dfy`, `recipients.dfy`). This is `CommentController`.
   - `createComment` stores a sanitized, active comment and recounts the post's comments.
   - It then notifies the mentioned users ("mention" job, Mention activity, +1 unseen notification count).
   - It notifies the post's other followers ("default" job, Comment activity, +1). The commenter and every mentioned user are left out of this list.
   - Last, it adds the mentioned users and the commenter as followers, unless they already follow.
   - `thank` toggles a user's thank of a comment.
   - `destroy` is a soft delete. It deactivates the comment, deletes the comment's activities and decrements the post's count.
   - `findForPost` lists a post's active comments in id order.

   The store is a class, `Comments.Store`, and each transaction is one method. The recipient lists are pure functions over `seq<nat>` that follow lodash's `_.without`, `_.difference` and `concat`.
2. **Reply-address codec** (`reply_address.dfy`, `email_options.dfy`, `strings.dfy`). This is the `Email` service.
   - `postReplyAddress` encrypts `salt + postId + "|" + userId` and wraps it as `reply-<cipher>@<domain>`.
   - `decodePostReplyAddress` runs the pattern `/reply-(.*?)@/` with its exact leftmost and lazy semantics. It decrypts the capture, strips a leading salt and splits on `|`.
   - The per-template option records are built by pure functions that deep-merge over the default sender.
3. **Project access policy** (`project_policy.dfy`). This is `checkAndSetProject`. Access is decided in this order: creator, then a draft's contributor, then public, then community member.
4. **Login configuration** (`passport.dfy`). This is `config/passport.js`. It covers:
   - the admin verify callback, a literal `hylo.com` suffix test on the first email;
   - `formatProfile`, `url`, and the identity session serialisers.

The collaborators whose code is not part of this model are parameters:
- `RichText.sanitize` and `RichText.getUserMentions` are functions passed to `CreateComment`.
- `PlayCrypto.encrypt` and `PlayCrypto.decrypt` are fields of `ReplyAddress.Config`. A decryption that throws is `None`. The lemma `RoundTrip` requires that decryption undoes encryption (`CipherInverse`).

The environment settings are parameters too: the salt, mail domain, sender address, protocol and domain. So are the clock values (`now`).

Two behaviours of the code worth noting:
- Mentioned users are not filtered by commenter. A commenter who mentions themself gets a mention notification.
- `createFromEmail` reports an address that does not decode as a server error. That handler is not part of this model.

## Model

| member | source | states |
|---|---|---|
| `Comments.Store.CreateComment` | api/controllers/CommentController.js:8-80 | The new comment is the next id, with the sanitized text, the post, the commenter and `active = true`. The post's `num_comments` becomes its active-comment count, one more than before. Mention jobs and activities come from `getUserMentions` of the sanitized text, and default ones go to the filtered followers. Counts are bumped once per notification. Followers gain the new followers, and afterwards every mentioned user and the commenter follows the post. Thanks are untouched. |
| `Comments.Store.InsertComment` | api/controllers/CommentController.js:20-31 | Appends the comment and stores the post's recount, one more than the old active count, plus `last_updated`. |
| `Comments.Store.FanOut` | api/controllers/CommentController.js:34-75 | Mention notifications, then default notifications, then the follower list extended by `NewFollowers`. Every mentioned user and the commenter follows afterwards. |
| `Comments.Store.Notify` | api/controllers/CommentController.js:46-70 | Per recipient, in list order: one job of the given version, one activity of the matching action, and a +1 count. |
| `Comments.Store.NotifyOne` | api/controllers/CommentController.js:47-55 | One job, one activity and one count increment for one user. |
| `Comments.NotifyStep` | api/controllers/CommentController.js:46-70 | Adding the next recipient adds exactly that recipient's job and activity at the end, and one more unseen count for that recipient. |
| `Comments.Store.ToggleThank` | api/controllers/CommentController.js:143-158 | For a known comment, the user's thank is removed if present and added otherwise. For an unknown comment, it fails and nothing changes. |
| `Comments.Store.Destroy` | api/controllers/CommentController.js:160-178 | For a known comment, the row stays but becomes inactive with `deactivated_by_id` and `deactivated_on`. Every activity of the comment is deleted, and the post's count is decremented by exactly 1. If the comment was active, consistency between count and active comments is kept. If it was already inactive, a consistent count becomes inconsistent. For an unknown comment, nothing changes. |
| `Comments.Store.FindForPost` | api/controllers/CommentController.js:84-99 | Lists exactly the post's active comments, as many as `CountActive`, with ids strictly ascending. Each entry is the corrected projection (`CommentAttributes`), whose `isThanked` holds iff the viewer has thanked; it is not the inverted flag of line 4 (see Findings). |
| `Comments.ListForPost` | api/controllers/CommentController.js:85-96 | The k-th entry is the projection of the k-th active comment of the post. Every active comment of the post is listed. Ids ascend when the store's ids do. The projection is the corrected `CommentAttributes`, not the inverted `isThanked` of line 4 (see Findings). |
| `Comments.ActiveRows` | api/controllers/CommentController.js:86 | `where post_id and active`: the kept rows are exactly the active rows of the post, and there are `CountActive` of them. |
| `Comments.ActiveRowsAscending` | api/controllers/CommentController.js:87 | Filtering keeps ascending id order. |
| `Comments.CommentAttributesAsWritten` | api/controllers/CommentController.js:1-6 | Picks id, text, date and user. `isThanked` holds iff the viewer's thanks are empty. |
| `Comments.CommentAttributes` | api/controllers/CommentController.js:1-6 | The same projection, with `isThanked` true iff the viewer has thanked. |
| `Comments.ViewerThanks` | api/controllers/CommentController.js:92-94 | The loaded thanks relation is non-empty iff the viewer's thank of that comment exists. |
| `Comments.IsThankedInverted` | api/controllers/CommentController.js:4 | The source's `isThanked` is the negation of "the viewer has thanked", and it always differs from the corrected value. |
| `Comments.ThankedShownUnthanked` | api/controllers/CommentController.js:4 | A concrete comment that viewer 3 thanked is shown as not thanked. |
| `Comments.Toggled` | api/controllers/CommentController.js:149-154 | The toggled thank is present iff it was absent, and every other thank is unchanged. |
| `Comments.ToggleTwice` | api/controllers/CommentController.js:149-154 | Toggling twice restores the thanks. Thank, unthank, thank leaves the user thanking. |
| `Comments.CountAfterAppend` | api/controllers/CommentController.js:21-27 | Inserting an active comment raises its post's active count by one, and other posts' counts are unchanged. |
| `Comments.CountAfterDeactivate` | api/controllers/CommentController.js:164-171 | Deactivating lowers the post's active count by one iff the comment was active on that post, and leaves every other count unchanged. |
| `Comments.DestroyInactiveDrifts` | api/controllers/CommentController.js:164-171 | Destroying an already inactive comment leaves the active count unchanged, but `num_comments` still drops by 1. A count that matched the active comments then falls one short. |
| `Comments.DestroyCounts` | api/controllers/CommentController.js:164-171 | Destroying an active comment keeps every post's count consistent with its active comments. Destroying an inactive one makes a consistent count inconsistent. |
| `Comments.Deactivated` | api/controllers/CommentController.js:167-171 | The soft-deleted row is inactive, with `deactivated_by_id` and `deactivated_on` set. Its id, text, date, post and author are unchanged. |
| `Comments.BumpCounts` | api/controllers/CommentController.js:54-68 | Specifies `Bump`, the per-user `new_notification_count` increments of lines 54 and 68: each user's count rises by exactly the number of times they occur among the recipients. |
| `Comments.CreateNotifiesOnce` | api/controllers/CommentController.js:46-70 | Assume duplicate-free follower and mention lists. Then a user's count rises by exactly 1 if they are mentioned, or follow the post without being the commenter, and by 0 otherwise. |
| `Comments.JobsFor` | api/controllers/CommentController.js:48-52 | One job per recipient, in order, carrying that recipient, the comment id and the version. |
| `Comments.ActivitiesFor` | api/controllers/CommentController.js:53 | One activity per recipient, in order, with the comment id and the action. |
| `Comments.ActionOf` | api/controllers/CommentController.js:51-67 | A mention job goes with a Mention activity and a default job with a Comment activity, and only so. |
| `Comments.WithoutActivitiesOf` | api/controllers/CommentController.js:165 | The remaining activities are exactly the old ones whose `comment_id` differs, each with its old multiplicity. |
| `Comments.Decremented` | api/controllers/CommentController.js:166 | The post's `num_comments` drops by 1 and its `last_updated` is kept. Other posts are unchanged, and a missing post row is left alone. |
| `Comments.CountActive` | api/controllers/CommentController.js:24 | The active-comment count never exceeds the number of rows. Its meaning as the recount is carried by `ActiveRows`, `CountAfterAppend` and `CountAfterDeactivate`. |
| `Recipients.Count` | api/controllers/CommentController.js:60 | Positive iff the user is in the list. |
| `Recipients.CountAppend` | api/controllers/CommentController.js:73 | Appending a user adds one occurrence of that user. |
| `Recipients.CountConcat` | api/controllers/CommentController.js:73 | Occurrences add up over concatenation. |
| `Recipients.Difference` | api/controllers/CommentController.js:60 | `_.difference`: a user in `ys` is dropped, and any other user keeps exactly its multiplicity. |
| `Recipients.Without` | api/controllers/CommentController.js:60 | `_.without`: every occurrence of the user is removed, and the others keep their multiplicity. |
| `Recipients.DefaultRecipients` | api/controllers/CommentController.js:60 | Exactly the followers who are neither the commenter nor mentioned, each as often as they follow. Never includes the commenter. |
| `Recipients.NewFollowers` | api/controllers/CommentController.js:73 | Exactly the mentioned users and the commenter who are not yet following, each as often as in `mentioned.concat(commenterId)`. Afterwards all of them follow, and no existing follower is added again. |
| `Recipients.NotifiedOnce` | api/controllers/CommentController.js:46-70 | With duplicate-free lists, each notified user gets exactly one notification in all, and no user gets both kinds. |
| `Recipients.RecipientsDisjoint` | api/controllers/CommentController.js:60 | The commenter is not a default recipient, and default and mention recipients are disjoint. Every other follower is covered by one of the two lists. |
| `Recipients.NewFollowersNoDuplicates` | api/controllers/CommentController.js:73 | The follower list stays duplicate-free when the mention list is duplicate-free and omits the commenter. |
| `ReplyAddress.PostReplyAddress` | api/services/Email.js:62-65 | The address is exactly `reply-`, then the ciphertext of the plaintext, then `@`, then the configured domain. For a safe ciphertext, the decoder's pattern matches at position 0 and its capture is exactly the ciphertext. |
| `ReplyAddress.Plaintext` | api/services/Email.js:63 | The encrypted text is the salt followed by `postId + "\|" + userId`. |
| `ReplyAddress.WrappedCipherMatches` | api/services/Email.js:64 | `reply-<cipher>@<domain>` is matched at the start, with the `@` right after the cipher. |
| `ReplyAddress.LazyUntilAt` | api/services/Email.js:69 | The lazy `(.*?)@` stops at an `@` with no `@` or line terminator before it, and fails iff there is no such `@`. |
| `ReplyAddress.FindReplyMatch` | api/services/Email.js:69 | The leftmost position where the whole pattern matches, or none at all. |
| `ReplyAddress.Capture` | api/services/Email.js:69-70 | `match[1]`: on a match, the matched text is `reply-` + capture + `@`. The capture holds no `@` and no line terminator. |
| `ReplyAddress.LazyFindsFirstAt` | api/services/Email.js:69 | The lazy group ends at the first reachable `@`. |
| `ReplyAddress.LazySucceedsBeforeAt` | api/services/Email.js:69 | With no line terminator in between, any later `@` makes the group succeed. |
| `ReplyAddress.FirstReplyWins` | api/services/Email.js:69 | On terminator-free text, the match starts at the first `reply-` and ends at the next `@`. |
| `ReplyAddress.StripSalt` | api/services/Email.js:68-70 | Removes the salt iff it is a prefix, and otherwise leaves the plaintext unchanged. |
| `ReplyAddress.RecoveredPlaintext` | api/services/Email.js:69-70 | No match gives `NoReplyMatch`. A matched capture that does not decrypt gives `Undecryptable`. Otherwise the result is the decrypted capture with a leading salt removed. |
| `ReplyAddress.DecodePostReplyAddress` | api/services/Email.js:67-74 | Succeeds iff a plaintext is recovered. Otherwise it fails with the same error: `NoReplyMatch` iff the pattern matches nowhere, `Undecryptable` if decryption throws. `postId` is the text before the first `\|`. `userId` is absent iff there is no `\|`. Otherwise it is the text between the first and the second `\|`, or everything after the first when there is no second. Neither id contains `\|`. |
| `ReplyAddress.SeparatorCounted` | api/services/Email.js:71 | A separator is present iff its count is positive. |
| `ReplyAddress.RoundTrip` | api/services/Email.js:62-74 | Decoding an encoded address yields `{postId: p, userId: u}`. This needs decrypt to undo encrypt, a ciphertext free of `@` and line terminators, and no `|` in either id. |
| `ReplyAddress.NoMatchFails` | api/services/Email.js:69-70 | An address with no `reply-…@` match fails, with no partial result. |
| `ReplyAddress.Decimal` | api/services/Email.js:63 | `%s` of a number is a non-empty string of decimal digits whose value (`DecimalValue`, most significant digit first) is the number. There is no leading zero except for 0 itself. |
| `ReplyAddress.Digit` | api/services/Email.js:63 | The character for digit `d` is `'0' + d`. |
| `ReplyAddress.RoundTripNumericIds` | api/services/Email.js:62-74 | The round trip for numeric ids: the address for posts and users given as numbers decodes to their decimal strings. |
| `ReplyAddress.DecimalExamples` | api/services/Email.js:63 | `%s` renders 42 as "42" and 7 as "7". |
| `ReplyAddress.RoundTripPost42User7` | api/services/Email.js:62-74 | The address for post 42 and user 7 decodes to `{postId: "42", userId: "7"}`. |
| `Strings.IndexOf` | api/services/Email.js:71 | The first occurrence of the character. |
| `Strings.Split` | api/services/Email.js:71 | The pieces are one more than the separators, contain no separator, and re-join to the input. |
| `Strings.SplitFirst` | api/services/Email.js:73 | `ids[0]` is the text before the first separator, or the whole string when there is none. |
| `Strings.SplitSecond` | api/services/Email.js:73 | With a separator present, `ids[1]` exists. It is the text between the first and second separator, or the whole remainder when there is no second. |
| `Strings.SplitPair` | api/services/Email.js:71-73 | Splitting `a + "\|" + b` gives `[a, b]` when neither side contains `\|`. |
| `Strings.NoSeparatorNoCount` | api/services/Email.js:71 | Without a separator, the count is zero. |
| `Strings.CountSplitAt` | api/services/Email.js:71 | Counting across the first separator. |
| `Strings.SplitAtFirst` | api/services/Email.js:71 | Cutting at the first separator and prepending the text before it to the pieces of the rest keeps every piece separator-free and re-joins to the input. |
| `EmailOptions.MergeSender` | api/services/Email.js:5-10 | `_.merge` of the sender: a defined override field wins, and an undefined one keeps the default. |
| `EmailOptions.DefaultSender` | api/services/Email.js:5-10 | The default sender is the configured address, named "Hylo", with no `reply_to`. |
| `EmailOptions.WithSender` | api/services/Email.js:41-50 | Merging an optional caller sender over the default: each field the caller defines replaces the default, and `reply_to` is the caller's. |
| `EmailOptions.PasswordReset` | api/services/Email.js:14-20 | Reset template and recipient. The sender is the default (configured address, name "Hylo"). |
| `EmailOptions.Invitation` | api/services/Email.js:22-33 | Invitation template, `version_name` "user-edited text", default address. The name is `"<inviter_name> (via Hylo)"`, and `reply_to` is the inviter's email when given. |
| `EmailOptions.FieldText` | api/services/Email.js:29 | `format('%s', data.inviter_name)`: the field's value, or "undefined" when it is missing. |
| `EmailOptions.Field` | api/services/Email.js:30 | `data.inviter_email`: present iff the field is, with its value. |
| `EmailOptions.NewCommentNotification` | api/services/Email.js:35-43 | Template, recipient, data and version as given. A defined sender address or name replaces the default, and an undefined one keeps the configured address or "Hylo". `reply_to` is the caller's, or absent. |
| `EmailOptions.PostMentionNotification` | api/services/Email.js:45-52 | Template, recipient and data as given, with no version. A defined sender address or name replaces the default, and an undefined one keeps the configured address or "Hylo". `reply_to` is the caller's, or absent. |
| `EmailOptions.CommunityDigest` | api/services/Email.js:54-60 | Digest template and recipient, with the default sender. |
| `EmailOptions.DefaultAddressKept` | api/services/Email.js:5-60 | Reset, invitation and digest are always sent from the configured address. The invitation never keeps the name "Hylo". |
| `ProjectPolicy.CheckAndSetProject` | api/policies/checkAndSetProject.js:1-36 | Missing project: server error, with no lookup. Creator: pass, with no lookup. Non-creator on a draft: pass iff a contributor membership exists, otherwise forbidden with "not a contributor". Non-draft public project: pass, with no lookup. Otherwise: pass iff a community membership exists, otherwise forbidden with "not in community". A pass carries the project. |
| `ProjectPolicy.DraftBeforePublic` | api/policies/checkAndSetProject.js:20-24 | A public draft still needs a contributor membership. |
| `ProjectPolicy.CreatorAlwaysPasses` | api/policies/checkAndSetProject.js:17-19 | The creator passes for every draft and public setting. |
| `ProjectPolicy.AllowedCharacterised` | api/policies/checkAndSetProject.js:17-31 | Access in one closed formula over creator, draft, public and memberships. |
| `Passport.VerifyAdmin` | config/passport.js:14-21 | No email: error. Otherwise accepted iff `emails[0]` ends in `hylo.com`, with the user `{email}` only. A rejection carries "Not a hylo.com address.". |
| `Passport.SuffixNotDomain` | config/passport.js:17 | `x@nothylo.com` is accepted, and `a@hylo.com.evil` is rejected. |
| `Passport.OnlyFirstEmail` | config/passport.js:15 | Emails after the first change neither the admin decision nor the success of `formatProfile`. |
| `Passport.FormatProfile` | config/passport.js:51-56 | `name` becomes `displayName` and `email` becomes `emails[0]`. Every other field is kept. A profile without emails fails. |
| `Passport.Url` | config/passport.js:47-49 | `protocol + "://" + domain` is a prefix, the path is a suffix, and the lengths add up. |
| `Passport.UrlInjective` | config/passport.js:47-49 | Two URLs are equal iff their paths are. |
| `Passport.CallbackUrlsDistinct` | config/passport.js:13-79 | The admin, Google, Facebook and LinkedIn callback URLs are pairwise distinct. |
| `Passport.SessionRoundTrip` | config/passport.js:26-32 | Serialising then deserialising a user gives it back, and so does the reverse. |
| `Passport.SerializeUser` | config/passport.js:26-28 | The session stores the user object itself. |
| `Passport.DeserializeUser` | config/passport.js:30-32 | The stored session value is the user itself. |

## Findings

| source | as written | input that shows it | evidently intended | confidence | as-written member | corrected member |
|---|---|---|---|---|---|---|
| api/controllers/CommentController.js:4 | `isThanked: _.isEmpty(comment.relations.thanks)`. The relation holds the viewer's thanks, so the flag is true when the viewer has NOT thanked. | Comment 1, which viewer 3 has thanked, is listed with `isThanked = false`. A comment viewer 3 has not thanked is listed with `isThanked = true`. | `isThanked` is true iff the viewer has thanked (`!_.isEmpty`) | medium, not executed | `Comments.CommentAttributesAsWritten`, `Comments.ThankedShownUnthanked` | `Comments.CommentAttributes` (used by `ListForPost` and `Store.FindForPost`) |

## Left out

- Persistence: bookshelf transactions, rollback, `Aggregate.count` and the query builders. Each transaction is one atomic method on `Comments.Store`.
- Concurrency: the `Promise.join` / `Promise.map` branches run in sequence, mentions first, then default notifications, then followers. Their interleaving and partial failure are not modelled.
- `Post.comments()` is not part of this model. Its count is taken to be the post's active comments.
- Comment ids are assigned as row number + 1, so "order by id" is store order.
- `User.incNewNotificationCount` is not part of this model. It is taken to add 1, like the explicit increment for default recipients.
- `Activity.forComment` is not part of this model. An activity records the comment, the reader and the action only.
- `post.addFollowers` is not part of this model. It is taken to append the given ids, and its added-by argument is dropped.
- `Thank.create` is not part of this model. Thanks are a set of (comment, user) pairs, so the datastore's one-thank-per-pair uniqueness is built in.
- `RichText.sanitize` and `RichText.getUserMentions` are uninterpreted function parameters.
- `PlayCrypto` is represented by the functions in `ReplyAddress.Config`.
- `parseInt` on ids, and ids that arrive as strings: all ids in the comment store are natural numbers.
- The `create` and `createFromEmail` handlers are request glue around `createComment`, `Post.find` and `decodePostReplyAddress`. They are not modelled. The same holds for the HTTP response envelopes (`res.ok`, `res.serverError`, `res.forbidden`) and `Analytics.track`.
- `destroy` saves the comment outside the transaction. The model applies all three updates together.
- The user columns loaded with a comment (`name`, `avatar_url`) are not modelled. The listing shows the author's id.
- The sendwithus call, `Queue.addJob` execution and the OAuth strategy objects are not modelled. A queued job is recorded in `Store.queued`, and an email request is an `EmailOptions.Options` record.
- `process.env` lookups and `new Date()` are parameters.
- `StripSalt`: the salt is compiled as a regular expression. The model treats it as literal text, so a salt with pattern metacharacters is not modelled.
- `ProjectPolicy.CheckAndSetProject`: a session without a user id is not modelled, and the requester is always a number.
- `Passport.FormatProfile` returns a new record. The source changes the profile object in place with `_.extend`. Nothing else in this model holds the old profile, so the aliasing is not captured.
- `EmailOptions` merge data is a string map, and `_.merge`'s deep merge of nested data values is not modelled.

=== FILE: comments.dfy ===
/** The comment handlers: creating a comment with its accounting and notification
    fan-out, toggling a thank, soft-deleting a comment, and listing a post's comments.
    The relational store they work on is an in-memory `Store`, and each transaction is
    one method. */
module Comments {
  import opened Wrappers
  import opened Recipients

  datatype Comment = Comment(
    id: nat,
    text: string,
    dateCommented: nat,
    postId: nat,
    userId: nat,
    active: bool,
    deactivatedById: Option<nat>,
    deactivatedOn: Option<nat>)

  /** A thank, keyed by the comment and the thanking user. */
  datatype Thank = Thank(commentId: nat, thankedById: nat)

  datatype Action = MentionAction | CommentAction

  /** A feed event for `readerId` about a comment. */
  datatype Activity = Activity(commentId: nat, readerId: nat, action: Action)

  /** The `version` of a `Comment.sendNotificationEmail` job. */
  datatype Version = MentionVersion | DefaultVersion

  /** A `Comment.sendNotificationEmail` job handed to the queue. */
  datatype Job = Job(recipientId: nat, commentId: nat, version: Version)

  datatype PostRow = PostRow(numComments: int, lastUpdated: nat)

  /** The answer shape of the listing: the picked columns and whether the viewer has thanked. */
  datatype CommentView = CommentView(id: nat, commentText: string, dateCommented: nat, user: nat, isThanked: bool)

  // ---------------------------------------------------------------------------
  // Specification functions

  /** Comment ids are assigned in insertion order: the row at index `i` has id `i + 1`. */
  ghost predicate IdsAreRows(cs: seq<Comment>) {
    forall i :: 0 <= i < |cs| ==> cs[i].id == i + 1
  }

  ghost predicate IdsAscending(cs: seq<Comment>) {
    forall i, j :: 0 <= i < j < |cs| ==> cs[i].id < cs[j].id
  }

  /** The number of active comments on a post. */
  function CountActive(cs: seq<Comment>, postId: nat): (n: nat)
    ensures n <= |cs|
  {
    if cs == [] then 0
    else
      var last := cs[|cs| - 1];
      CountActive(cs[..|cs| - 1], postId) + (if last.active && last.postId == postId then 1 else 0)
  }

  /** A user's `new_notification_count`; a user without a stored count has 0. */
  function Unseen(counts: map<nat, nat>, u: nat): nat {
    if u in counts then counts[u] else 0
  }

  /** The counts after one increment per occurrence of a user in `us`. */
  function Bump(counts: map<nat, nat>, us: seq<nat>): map<nat, nat> {
    if us == [] then counts
    else
      var before := Bump(counts, us[..|us| - 1]);
      before[us[|us| - 1] := Unseen(before, us[|us| - 1]) + 1]
  }

  /** Each occurrence of a user among the recipients raises their count by exactly one. */
  lemma {:induction false} BumpCounts(counts: map<nat, nat>, us: seq<nat>, u: nat)
    ensures Unseen(Bump(counts, us), u) == Unseen(counts, u) + Count(us, u)
  {
    if us != [] {
      var init, last := us[..|us| - 1], us[|us| - 1];
      assert us == init + [last];
      CountAppend(init, last, u);
      BumpCounts(counts, init, u);
    }
  }

  /** One job per recipient, in recipient order. */
  function JobsFor(us: seq<nat>, commentId: nat, version: Version): (r: seq<Job>)
    ensures |r| == |us|
    ensures forall k :: 0 <= k < |us| ==> r[k] == Job(us[k], commentId, version)
  {
    if us == [] then []
    else JobsFor(us[..|us| - 1], commentId, version) + [Job(us[|us| - 1], commentId, version)]
  }

  /** Extending the recipients by the next one extends the jobs, the activities and
      the counts by that recipient's share. */
  lemma NotifyStep(us: seq<nat>, i: nat, commentId: nat, version: Version, counts: map<nat, nat>)
    requires i < |us|
    ensures JobsFor(us[..i + 1], commentId, version)
      == JobsFor(us[..i], commentId, version) + [Job(us[i], commentId, version)]
    ensures ActivitiesFor(us[..i + 1], commentId, ActionOf(version))
      == ActivitiesFor(us[..i], commentId, ActionOf(version)) + [Activity(commentId, us[i], ActionOf(version))]
    ensures Bump(counts, us[..i + 1])
      == Bump(counts, us[..i])[us[i] := Unseen(Bump(counts, us[..i]), us[i]) + 1]
  {
    assert us[..i + 1][..i] == us[..i];
  }

  /** One activity per recipient, in recipient order. */
  function ActivitiesFor(us: seq<nat>, commentId: nat, action: Action): (r: seq<Activity>)
    ensures |r| == |us|
    ensures forall k :: 0 <= k < |us| ==> r[k] == Activity(commentId, us[k], action)
  {
    if us == [] then []
    else ActivitiesFor(us[..|us| - 1], commentId, action) + [Activity(commentId, us[|us| - 1], action)]
  }

  /** The activity action that goes with a job version: a mention job records a Mention
      activity, a default job a Comment activity. */
  function ActionOf(version: Version): (a: Action)
    ensures a == MentionAction <==> version == MentionVersion
    ensures a == CommentAction <==> version == DefaultVersion
  {
    match version
    case MentionVersion => MentionAction
    case DefaultVersion => CommentAction
  }

  /** The follower list of a post, empty for a post nobody follows. */
  function Followers(followers: map<nat, seq<nat>>, postId: nat): seq<nat> {
    if postId in followers then followers[postId] else []
  }

  /** The activities that remain once those of a comment are deleted. */
  function WithoutActivitiesOf(acts: seq<Activity>, commentId: nat): (r: seq<Activity>)
    ensures forall a :: a in r <==> a in acts && a.commentId != commentId
    ensures forall a {:trigger multiset(r)[a]} :: multiset(r)[a] == if a.commentId == commentId then 0 else multiset(acts)[a]
    ensures |r| <= |acts|
  {
    if acts == [] then []
    else
      var init, last := acts[..|acts| - 1], acts[|acts| - 1];
      assert acts == init + [last];
      WithoutActivitiesOf(init, commentId) + (if last.commentId == commentId then [] else [last])
  }

  /** The comment row after a soft delete. */
  function Deactivated(c: Comment, byId: nat, now: nat): (r: Comment)
    ensures !r.active && r.deactivatedById == Some(byId) && r.deactivatedOn == Some(now)
    ensures r.id == c.id && r.text == c.text && r.dateCommented == c.dateCommented
    ensures r.postId == c.postId && r.userId == c.userId
  {
    c.(active := false, deactivatedById := Some(byId), deactivatedOn := Some(now))
  }

  /** `UPDATE post SET num_comments = num_comments - 1`: no row, no change. */
  function Decremented(posts: map<nat, PostRow>, postId: nat): (r: map<nat, PostRow>)
    ensures r.Keys == posts.Keys
    ensures postId in posts ==> r[postId].numComments == posts[postId].numComments - 1
    ensures postId in posts ==> r[postId].lastUpdated == posts[postId].lastUpdated
    ensures forall p :: p in posts && p != postId ==> r[p] == posts[p]
  {
    if postId in posts then posts[postId := posts[postId].(numComments := posts[postId].numComments - 1)]
    else posts
  }

  /** The thank set after the toggle of `t`. */
  function Toggled(thanks: set<Thank>, t: Thank): (r: set<Thank>)
    ensures t in r <==> t !in thanks
    ensures r - {t} == thanks - {t}
  {
    if t in thanks then thanks - {t} else thanks + {t}
  }

  /** Toggling twice restores the thanks; thank, unthank, thank leaves the user thanking. */
  lemma ToggleTwice(thanks: set<Thank>, t: Thank)
    ensures Toggled(Toggled(thanks, t), t) == thanks
    ensures t !in thanks ==> t in Toggled(Toggled(Toggled(thanks, t), t), t)
  {
  }

  /** Soft-deleting a comment lowers its post's active count by one when the comment was
      active, and changes no count otherwise. */
  lemma {:induction false} CountAfterDeactivate(cs: seq<Comment>, i: nat, byId: nat, now: nat, postId: nat)
    requires i < |cs|
    ensures CountActive(cs[i := Deactivated(cs[i], byId, now)], postId)
            == CountActive(cs, postId) - (if cs[i].active && cs[i].postId == postId then 1 else 0)
  {
    var cs' := cs[i := Deactivated(cs[i], byId, now)];
    if i < |cs| - 1 {
      assert cs'[..|cs'| - 1] == cs[..|cs| - 1][i := Deactivated(cs[i], byId, now)];
      CountAfterDeactivate(cs[..|cs| - 1], i, byId, now, postId);
    } else {
      assert cs'[..|cs'| - 1] == cs[..|cs| - 1];
    }
  }

  /** Destroying a comment that is already inactive still decrements the stored count
      while the number of active comments stays the same: a consistent count drifts. */
  lemma DestroyInactiveDrifts(cs: seq<Comment>, posts: map<nat, PostRow>, i: nat, byId: nat, now: nat)
    requires i < |cs| && !cs[i].active && cs[i].postId in posts
    requires posts[cs[i].postId].numComments == CountActive(cs, cs[i].postId)
    ensures var p := cs[i].postId;
      && CountActive(cs[i := Deactivated(cs[i], byId, now)], p) == CountActive(cs, p)
      && Decremented(posts, p)[p].numComments == CountActive(cs[i := Deactivated(cs[i], byId, now)], p) - 1
  {
    CountAfterDeactivate(cs, i, byId, now, cs[i].postId);
  }

  /** A soft delete keeps every row's id, so ids still number the rows. */
  lemma DeactivateKeepsIds(cs: seq<Comment>, i: nat, byId: nat, now: nat)
    requires i < |cs|
    ensures IdsAreRows(cs) ==> IdsAreRows(cs[i := Deactivated(cs[i], byId, now)])
  {
  }

  /** A post's stored comment count agrees with its active comments. */
  ghost predicate Consistent(posts: map<nat, PostRow>, cs: seq<Comment>, postId: nat) {
    postId in posts && posts[postId].numComments == CountActive(cs, postId)
  }

  /** The recount bookkeeping of a soft delete: destroying an active comment keeps every
      consistent post count consistent; destroying an inactive one breaks its post's. */
  lemma DestroyCounts(cs: seq<Comment>, posts: map<nat, PostRow>, i: nat, byId: nat, now: nat)
    requires i < |cs|
    ensures var cs', posts' := cs[i := Deactivated(cs[i], byId, now)], Decremented(posts, cs[i].postId);
      && (cs[i].active ==> forall p :: Consistent(posts, cs, p) ==> Consistent(posts', cs', p))
      && (!cs[i].active ==> Consistent(posts, cs, cs[i].postId) ==> !Consistent(posts', cs', cs[i].postId))
  {
    forall p ensures CountActive(cs[i := Deactivated(cs[i], byId, now)], p)
                     == CountActive(cs, p) - (if cs[i].active && cs[i].postId == p then 1 else 0)
    {
      CountAfterDeactivate(cs, i, byId, now, p);
    }
  }

  /** Appending a comment raises the active count of its post by one when it is active. */
  lemma CountAfterAppend(cs: seq<Comment>, c: Comment, postId: nat)
    ensures CountActive(cs + [c], postId) == CountActive(cs, postId) + (if c.active && c.postId == postId then 1 else 0)
  {
    assert (cs + [c])[..|cs|] == cs;
  }

  /** After a creation, each user's notification count has risen by one if they were
      mentioned or follow the post (and did not write the comment), and is otherwise
      unchanged, provided the follower and mention lists are duplicate-free. */
  lemma CreateNotifiesOnce(counts: map<nat, nat>, existing: seq<nat>, commenter: nat, mentioned: seq<nat>, u: nat)
    requires NoDuplicates(existing) && NoDuplicates(mentioned)
    ensures Unseen(Bump(Bump(counts, mentioned), DefaultRecipients(existing, commenter, mentioned)), u)
            == Unseen(counts, u) + (if u in mentioned || (u in existing && u != commenter) then 1 else 0)
  {
    NotifiedOnce(existing, commenter, mentioned, u);
    BumpCounts(counts, mentioned, u);
    BumpCounts(Bump(counts, mentioned), DefaultRecipients(existing, commenter, mentioned), u);
  }

  // ---------------------------------------------------------------------------
  // The listing

  /** `commentAttributes` as the source writes it: `isThanked` is `_.isEmpty` of the
      viewer's thanks, which is true when the viewer has NOT thanked. */
  function CommentAttributesAsWritten(c: Comment, viewerThanks: set<Thank>): (v: CommentView)
    ensures v.id == c.id && v.commentText == c.text && v.dateCommented == c.dateCommented && v.user == c.userId
    ensures v.isThanked <==> viewerThanks == {}
  {
    CommentView(c.id, c.text, c.dateCommented, c.userId, viewerThanks == {})
  }

  /** `commentAttributes` with the evidently intended `isThanked`: the viewer has thanked. */
  function CommentAttributes(c: Comment, viewerThanks: set<Thank>): (v: CommentView)
    ensures v.id == c.id && v.commentText == c.text && v.dateCommented == c.dateCommented && v.user == c.userId
    ensures v.isThanked <==> viewerThanks != {}
  {
    CommentView(c.id, c.text, c.dateCommented, c.userId, viewerThanks != {})
  }

  /** The thanks relation loaded for a comment: the viewer's thanks of it. */
  function ViewerThanks(thanks: set<Thank>, commentId: nat, viewer: nat): (r: set<Thank>)
    ensures r != {} <==> Thank(commentId, viewer) in thanks
  {
    var r := set t | t in thanks && t.commentId == commentId && t.thankedById == viewer;
    assert Thank(commentId, viewer) in thanks ==> Thank(commentId, viewer) in r;
    r
  }

  /** The listing reports a comment the viewer has thanked as not thanked, and the
      other way round. */
  lemma IsThankedInverted(c: Comment, thanks: set<Thank>, viewer: nat)
    ensures CommentAttributesAsWritten(c, ViewerThanks(thanks, c.id, viewer)).isThanked
            <==> Thank(c.id, viewer) !in thanks
    ensures CommentAttributesAsWritten(c, ViewerThanks(thanks, c.id, viewer)).isThanked
            != CommentAttributes(c, ViewerThanks(thanks, c.id, viewer)).isThanked
  {
  }

  /** A comment its viewer has thanked, shown as not thanked by the source's projection. */
  lemma ThankedShownUnthanked()
    ensures var c := Comment(1, "hi", 0, 10, 2, true, None, None);
      !CommentAttributesAsWritten(c, ViewerThanks({Thank(1, 3)}, 1, 3)).isThanked
      && CommentAttributes(c, ViewerThanks({Thank(1, 3)}, 1, 3)).isThanked
  {
    assert Thank(1, 3) in {Thank(1, 3)};
  }

  /** How the listing shows a comment to `viewer`. */
  function View(c: Comment, thanks: set<Thank>, viewer: nat): CommentView {
    CommentAttributes(c, ViewerThanks(thanks, c.id, viewer))
  }

  /** The post's active comments, in store order. */
  function ActiveRows(cs: seq<Comment>, postId: nat): (r: seq<Comment>)
    ensures |r| == CountActive(cs, postId)
    ensures forall c :: c in r <==> c in cs && c.active && c.postId == postId
  {
    if cs == [] then []
    else
      var init, last := cs[..|cs| - 1], cs[|cs| - 1];
      assert cs == init + [last];
      ActiveRows(init, postId) + (if last.active && last.postId == postId then [last] else [])
  }

  /** Filtering keeps the store's id order. */
  lemma {:induction false} ActiveRowsAscending(cs: seq<Comment>, postId: nat)
    ensures IdsAscending(cs) ==> IdsAscending(ActiveRows(cs, postId))
  {
    if cs != [] && IdsAscending(cs) {
      var init, last := cs[..|cs| - 1], cs[|cs| - 1];
      var rest := ActiveRows(init, postId);
      ActiveRowsAscending(init, postId);
      forall k | 0 <= k < |rest| ensures rest[k].id < last.id {
        assert rest[k] in init;
      }
    }
  }

  /** Views taken row by row show every row. */
  lemma ViewsCover(rows: seq<Comment>, thanks: set<Thank>, viewer: nat, r: seq<CommentView>)
    requires |r| == |rows| && forall k :: 0 <= k < |r| ==> r[k] == View(rows[k], thanks, viewer)
    ensures forall c :: c in rows ==> View(c, thanks, viewer) in r
  {
    forall c | c in rows ensures View(c, thanks, viewer) in r {
      var k :| 0 <= k < |rows| && rows[k] == c;
      assert r[k] == View(c, thanks, viewer);
    }
  }

  /** Views taken row by row keep the rows' id order. */
  lemma ViewsAscend(rows: seq<Comment>, thanks: set<Thank>, viewer: nat, r: seq<CommentView>)
    requires |r| == |rows| && forall k :: 0 <= k < |r| ==> r[k] == View(rows[k], thanks, viewer)
    ensures IdsAscending(rows) ==> forall j, k :: 0 <= j < k < |r| ==> r[j].id < r[k].id
  {
    assert forall k :: 0 <= k < |r| ==> r[k].id == rows[k].id;
  }

  /** `findForPost`: the active comments of the post, in store order, as the viewer sees them. */
  function ListForPost(cs: seq<Comment>, thanks: set<Thank>, postId: nat, viewer: nat): (r: seq<CommentView>)
    ensures |r| == CountActive(cs, postId)
    ensures forall k :: 0 <= k < |r| ==> r[k] == View(ActiveRows(cs, postId)[k], thanks, viewer)
    ensures forall c :: c in cs && c.active && c.postId == postId ==> View(c, thanks, viewer) in r
    ensures IdsAscending(cs) ==> forall j, k :: 0 <= j < k < |r| ==> r[j].id < r[k].id
  {
    var rows := ActiveRows(cs, postId);
    var r := seq(|rows|, k requires 0 <= k < |rows| => View(rows[k], thanks, viewer));
    ActiveRowsAscending(cs, postId);
    ViewsCover(rows, thanks, viewer, r);
    ViewsAscend(rows, thanks, viewer, r);
    r
  }

  // ---------------------------------------------------------------------------
  // The store

  class Store {
    var comments: seq<Comment>
    var thanks: set<Thank>
    var activities: seq<Activity>
    var posts: map<nat, PostRow>
    var followers: map<nat, seq<nat>>
    var unseen: map<nat, nat>
    var queued: seq<Job>

    ghost predicate Valid()
      reads this
    {
      IdsAreRows(comments)
    }

    /** A post's stored comment count agrees with its active comments. */
    ghost predicate CountConsistent(postId: nat)
      reads this
    {
      Consistent(posts, comments, postId)
    }

    constructor (posts: map<nat, PostRow>, followers: map<nat, seq<nat>>)
      ensures Valid()
      ensures this.posts == posts && this.followers == followers
      ensures comments == [] && thanks == {} && activities == [] && unseen == map[] && queued == []
    {
      this.posts := posts;
      this.followers := followers;
      comments, thanks, activities, unseen, queued := [], {}, [], map[], [];
    }

    /** One notification: the job, the activity and the count increment for one user. */
    method NotifyOne(u: nat, commentId: nat, version: Version)
      modifies this`queued, this`activities, this`unseen
      ensures queued == old(queued) + [Job(u, commentId, version)]
      ensures activities == old(activities) + [Activity(commentId, u, ActionOf(version))]
      ensures unseen == old(unseen)[u := Unseen(old(unseen), u) + 1]
    {
      queued := queued + [Job(u, commentId, version)];
      activities := activities + [Activity(commentId, u, ActionOf(version))];
      unseen := unseen[u := Unseen(unseen, u) + 1];
    }

    /** One notification per recipient, in order. */
    method Notify(recipients: seq<nat>, commentId: nat, version: Version)
      modifies this`queued, this`activities, this`unseen
      ensures queued == old(queued) + JobsFor(recipients, commentId, version)
      ensures activities == old(activities) + ActivitiesFor(recipients, commentId, ActionOf(version))
      ensures unseen == Bump(old(unseen), recipients)
    {
      var i := 0;
      while i < |recipients|
        invariant 0 <= i <= |recipients|
        invariant queued == old(queued) + JobsFor(recipients[..i], commentId, version)
        invariant activities == old(activities) + ActivitiesFor(recipients[..i], commentId, ActionOf(version))
        invariant unseen == Bump(old(unseen), recipients[..i])
      {
        NotifyStep(recipients, i, commentId, version, old(unseen));
        NotifyOne(recipients[i], commentId, version);
        i := i + 1;
      }
      assert recipients[..i] == recipients;
    }

    /** The first two steps of `createComment`: insert the comment, then store the
        post's recounted comments and the time of the update. */
    method InsertComment(c: Comment, now: nat)
      requires Valid()
      requires c.id == |comments| + 1 && c.active && c.postId in posts
      modifies this`comments, this`posts
      ensures Valid()
      ensures comments == old(comments) + [c]
      ensures posts == old(posts)[c.postId := PostRow(CountActive(comments, c.postId), now)]
      ensures posts[c.postId].numComments == CountActive(old(comments), c.postId) + 1
    {
      CountAfterAppend(comments, c, c.postId);
      comments := comments + [c];
      posts := posts[c.postId := PostRow(CountActive(comments, c.postId), now)];
    }

    /** The fan-out of `createComment`: notify the mentioned users, then the other
        followers, then add the new followers. */
    method FanOut(commentId: nat, postId: nat, commenterId: nat, mentioned: seq<nat>)
      modifies this`queued, this`activities, this`unseen, this`followers
      ensures var existing := Followers(old(followers), postId);
              var others := DefaultRecipients(existing, commenterId, mentioned);
              && queued == old(queued) + JobsFor(mentioned, commentId, MentionVersion)
                                       + JobsFor(others, commentId, DefaultVersion)
              && activities == old(activities) + ActivitiesFor(mentioned, commentId, MentionAction)
                                               + ActivitiesFor(others, commentId, CommentAction)
              && unseen == Bump(Bump(old(unseen), mentioned), others)
              && followers == old(followers)[postId := existing + NewFollowers(existing, commenterId, mentioned)]
      ensures forall u :: u in mentioned || u == commenterId ==> u in followers[postId]
    {
      var existing := Followers(followers, postId);
      var others := DefaultRecipients(existing, commenterId, mentioned);
      Notify(mentioned, commentId, MentionVersion);
      Notify(others, commentId, DefaultVersion);
      followers := followers[postId := existing + NewFollowers(existing, commenterId, mentioned)];
    }

    /** `createComment(commenterId, text, post)`. */
    method CreateComment(commenterId: nat, rawText: string, postId: nat, now: nat,
                         sanitize: string -> string, userMentions: string -> seq<nat>)
      returns (c: Comment)
      requires Valid()
      requires postId in posts
      modifies this`comments, this`posts, this`queued, this`activities, this`unseen, this`followers
      ensures Valid()
      ensures c == Comment(|old(comments)| + 1, sanitize(rawText), now, postId, commenterId, true, None, None)
      ensures comments == old(comments) + [c]
      ensures posts == old(posts)[postId := PostRow(CountActive(comments, postId), now)]
      ensures CountConsistent(postId)
      ensures posts[postId].numComments == CountActive(old(comments), postId) + 1
      ensures var existing := Followers(old(followers), postId);
              var mentioned := userMentions(c.text);
              var others := DefaultRecipients(existing, commenterId, mentioned);
              && queued == old(queued) + JobsFor(mentioned, c.id, MentionVersion)
                                       + JobsFor(others, c.id, DefaultVersion)
              && activities == old(activities) + ActivitiesFor(mentioned, c.id, MentionAction)
                                               + ActivitiesFor(others, c.id, CommentAction)
              && unseen == Bump(Bump(old(unseen), mentioned), others)
              && followers == old(followers)[postId := existing + NewFollowers(existing, commenterId, mentioned)]
      ensures forall u :: u in userMentions(c.text) || u == commenterId ==> u in followers[postId]
    {
      var text := sanitize(rawText);
      c := Comment(|comments| + 1, text, now, postId, commenterId, true, None, None);
      InsertComment(c, now);
      FanOut(c.id, postId, commenterId, userMentions(text));
    }

    /** `thank`: remove the user's thank of the comment if there is one, else add one. An
        unknown comment is a server error and changes nothing. */
    method ToggleThank(commentId: nat, userId: nat) returns (ok: bool)
      requires Valid()
      modifies this`thanks
      ensures ok <==> 1 <= commentId <= |comments|
      ensures thanks == if ok then Toggled(old(thanks), Thank(commentId, userId)) else old(thanks)
    {
      ok := 1 <= commentId <= |comments|;
      if ok {
        var t := Thank(commentId, userId);
        if t in thanks {
          thanks := thanks - {t};
        } else {
          thanks := thanks + {t};
        }
      }
    }

    /** `destroy`: soft-delete the comment, delete its activities and decrement its post's
        count. An unknown comment is a server error and changes nothing. */
    method Destroy(commentId: nat, userId: nat, now: nat) returns (ok: bool)
      requires Valid()
      modifies this`comments, this`activities, this`posts
      ensures Valid()
      ensures ok <==> 1 <= commentId <= |old(comments)|
      ensures !ok ==> comments == old(comments) && activities == old(activities) && posts == old(posts)
      ensures ok ==> var c := old(comments)[commentId - 1];
                     && comments == old(comments)[commentId - 1 := Deactivated(c, userId, now)]
                     && activities == WithoutActivitiesOf(old(activities), commentId)
                     && posts == Decremented(old(posts), c.postId)
      ensures ok && old(comments)[commentId - 1].active ==>
                forall p :: Consistent(old(posts), old(comments), p) ==> Consistent(posts, comments, p)
      ensures ok && !old(comments)[commentId - 1].active ==>
                var p := old(comments)[commentId - 1].postId;
                Consistent(old(posts), old(comments), p) ==> !Consistent(posts, comments, p)
      ensures thanks == old(thanks) && followers == old(followers)
      ensures unseen == old(unseen) && queued == old(queued)
    {
      ok := 1 <= commentId <= |comments|;
      if ok {
        var c := comments[commentId - 1];
        DestroyCounts(comments, posts, commentId - 1, userId, now);
        DeactivateKeepsIds(comments, commentId - 1, userId, now);
        activities := WithoutActivitiesOf(activities, commentId);
        posts := Decremented(posts, c.postId);
        comments := comments[commentId - 1 := Deactivated(c, userId, now)];
      }
    }

    /** `findForPost`: the post's active comments in ascending id order. */
    function FindForPost(postId: nat, viewer: nat): (r: seq<CommentView>)
      reads this
      requires Valid()
      ensures |r| == CountActive(comments, postId)
      ensures forall j, k :: 0 <= j < k < |r| ==> r[j].id < r[k].id
      ensures forall c :: c in comments && c.active && c.postId == postId ==> View(c, thanks, viewer) in r
      ensures forall v :: v in r ==> exists c :: c in comments && c.active && c.postId == postId && v == View(c, thanks, viewer)
    {
      ListForPost(comments, thanks, postId, viewer)
    }
  }
}

=== FILE: email_options.dfy ===
/** The option records the Email service hands to the transactional-email API, one per
    template: the template id, the recipient, the merge data, an optional version name
    and the sender, deep-merged over the default sender. The API call itself is not
    part of this model. */
module EmailOptions {
  import opened Wrappers

  /** Template merge data: field name to value. */
  type Data = map<string, string>

  /** A sender record; an absent (`undefined`) field is `None`. */
  datatype Sender = Sender(address: Option<string>, name: Option<string>, replyTo: Option<string>)

  datatype Options = Options(
    emailId: string,
    recipient: string,
    emailData: Option<Data>,
    versionName: Option<string>,
    sender: Sender)

  const PasswordResetTemplate: string := "tem_mccpcJNEzS4822mAnDNmGT"
  const InvitationTemplate: string := "tem_ZXZuvouDYKKhCrdEWYbEp9"
  const NewCommentTemplate: string := "tem_tP6JzrYzvvDXhgTNmtkxuW"
  const MentionTemplate: string := "tem_wXiqtyNzAr8EF4fqBna5WQ"
  const DigestTemplate: string := "tem_rkZiuPHBvLDFrZ6rv8VixH"

  /** The default options: the configured sender address under the name "Hylo". */
  function DefaultSender(senderAddress: string): (r: Sender)
    ensures r.address == Some(senderAddress) && r.name == Some("Hylo") && r.replyTo.None?
  {
    Sender(Some(senderAddress), Some("Hylo"), None)
  }

  function Pick(o: Option<string>, fallback: Option<string>): Option<string> {
    if o.Some? then o else fallback
  }

  /** `_.merge` of two sender records: a defined field of `over` replaces the field of
      `base`; an undefined one is skipped. */
  function MergeSender(base: Sender, over: Sender): (r: Sender)
    ensures over.address.Some? ==> r.address == over.address
    ensures over.address.None? ==> r.address == base.address
    ensures over.name.Some? ==> r.name == over.name
    ensures over.name.None? ==> r.name == base.name
    ensures over.replyTo.Some? ==> r.replyTo == over.replyTo
    ensures over.replyTo.None? ==> r.replyTo == base.replyTo
  {
    Sender(Pick(over.address, base.address), Pick(over.name, base.name), Pick(over.replyTo, base.replyTo))
  }

  /** `_.merge(defaultOptions, {sender: opts.sender})`: a sender override that the caller
      may leave out; each field it defines replaces the default. */
  function WithSender(senderAddress: string, over: Option<Sender>): (r: Sender)
    ensures r.address == if over.Some? && over.value.address.Some? then over.value.address else Some(senderAddress)
    ensures r.name == if over.Some? && over.value.name.Some? then over.value.name else Some("Hylo")
    ensures r.replyTo == if over.Some? then over.value.replyTo else None
  {
    if over.Some? then MergeSender(DefaultSender(senderAddress), over.value)
    else DefaultSender(senderAddress)
  }

  /** A field of the merge data as `%s` renders it: a missing field is "undefined". */
  function FieldText(data: Data, field: string): (r: string)
    ensures field in data ==> r == data[field]
    ensures field !in data ==> r == "undefined"
  {
    if field in data then data[field] else "undefined"
  }

  /** A field of the merge data as the object read gives it: `undefined` when missing. */
  function Field(data: Data, field: string): (r: Option<string>)
    ensures r.Some? <==> field in data
    ensures r.Some? ==> r.value == data[field]
  {
    if field in data then Some(data[field]) else None
  }

  /** `sendPasswordReset(opts)`. */
  function PasswordReset(senderAddress: string, email: string, templateData: Option<Data>): (r: Options)
    ensures r.emailId == PasswordResetTemplate && r.recipient == email && r.emailData == templateData
    ensures r.versionName.None?
    ensures r.sender == DefaultSender(senderAddress)
  {
    Options(PasswordResetTemplate, email, templateData, None, DefaultSender(senderAddress))
  }

  /** `sendInvitation(email, data)`: sent in the inviter's name, replies go to the inviter. */
  function Invitation(senderAddress: string, email: string, data: Data): (r: Options)
    ensures r.emailId == InvitationTemplate && r.recipient == email && r.emailData == Some(data)
    ensures r.versionName == Some("user-edited text")
    ensures r.sender.address == Some(senderAddress)
    ensures r.sender.name == Some(FieldText(data, "inviter_name") + " (via Hylo)")
    ensures "inviter_email" in data ==> r.sender.replyTo == Some(data["inviter_email"])
    ensures "inviter_email" !in data ==> r.sender.replyTo.None?
  {
    var over := Sender(None, Some(FieldText(data, "inviter_name") + " (via Hylo)"), Field(data, "inviter_email"));
    Options(InvitationTemplate, email, Some(data), Some("user-edited text"),
            MergeSender(DefaultSender(senderAddress), over))
  }

  /** `sendNewCommentNotification(opts)`. */
  function NewCommentNotification(senderAddress: string, email: string, data: Option<Data>,
                                  version: Option<string>, sender: Option<Sender>): (r: Options)
    ensures r.emailId == NewCommentTemplate && r.recipient == email && r.emailData == data
    ensures r.versionName == version
    ensures (sender.None? || sender.value.address.None?) ==> r.sender.address == Some(senderAddress)
    ensures (sender.None? || sender.value.name.None?) ==> r.sender.name == Some("Hylo")
    ensures sender.Some? && sender.value.address.Some? ==> r.sender.address == sender.value.address
    ensures sender.Some? && sender.value.name.Some? ==> r.sender.name == sender.value.name
    ensures r.sender.replyTo == if sender.Some? then sender.value.replyTo else None
  {
    Options(NewCommentTemplate, email, data, version, WithSender(senderAddress, sender))
  }

  /** `sendPostMentionNotification(opts)`. */
  function PostMentionNotification(senderAddress: string, email: string, data: Option<Data>,
                                   sender: Option<Sender>): (r: Options)
    ensures r.emailId == MentionTemplate && r.recipient == email && r.emailData == data
    ensures r.versionName.None?
    ensures (sender.None? || sender.value.address.None?) ==> r.sender.address == Some(senderAddress)
    ensures (sender.None? || sender.value.name.None?) ==> r.sender.name == Some("Hylo")
    ensures sender.Some? && sender.value.address.Some? ==> r.sender.address == sender.value.address
    ensures sender.Some? && sender.value.name.Some? ==> r.sender.name == sender.value.name
    ensures r.sender.replyTo == if sender.Some? then sender.value.replyTo else None
  {
    Options(MentionTemplate, email, data, None, WithSender(senderAddress, sender))
  }

  /** `sendCommunityDigest(opts)`. */
  function CommunityDigest(senderAddress: string, email: string, data: Option<Data>): (r: Options)
    ensures r.emailId == DigestTemplate && r.recipient == email && r.emailData == data
    ensures r.versionName.None?
    ensures r.sender == DefaultSender(senderAddress)
  {
    Options(DigestTemplate, email, data, None, DefaultSender(senderAddress))
  }

  /** Only the two notification templates let the caller replace the sender address;
      every other record is sent from the configured address. */
  lemma DefaultAddressKept(senderAddress: string, email: string, data: Data, d: Option<Data>)
    ensures PasswordReset(senderAddress, email, d).sender.address == Some(senderAddress)
    ensures Invitation(senderAddress, email, data).sender.address == Some(senderAddress)
    ensures CommunityDigest(senderAddress, email, d).sender.address == Some(senderAddress)
    ensures Invitation(senderAddress, email, data).sender.name != Some("Hylo")
  {
    var n := FieldText(data, "inviter_name") + " (via Hylo)";
    assert n[|n| - 1] == ')';
  }
}

=== FILE: passport.dfy ===
/** The identity-provider configuration: the admin-login verify callback, the profile
    normalisation shared by the Google, Facebook and LinkedIn logins, the callback URL
    builder and the session serialisers. The OAuth strategies themselves are not part
    of this model. */
module Passport {
  import opened Wrappers
  import opened Strings

  /** A provider profile. `name` and `email` are the fields normalisation sets;
      `others` stands for every other field the provider supplied. */
  datatype Profile = Profile(
    displayName: Option<string>,
    emails: seq<string>,
    name: Option<string>,
    email: Option<string>,
    others: map<string, string>)

  const AdminDomain: string := "hylo.com"
  const AdminRejection: string := "Not a hylo.com address."

  /** What the admin verify callback reports to `done`: an error (here, reading the
      first email of a profile that has none), the user, or `false` with a message. */
  datatype AdminResult = VerifyError | Accepted(user: AdminUser) | Rejected(message: string)

  datatype AdminUser = AdminUser(email: string)

  /** The admin-login verify callback: only `emails[0]` is consulted, and it must end in
      the literal text `hylo.com`. */
  function VerifyAdmin(profile: Profile): (r: AdminResult)
    ensures profile.emails == [] <==> r == VerifyError
    ensures profile.emails != [] ==>
      && (r.Accepted? <==> IsSuffix(AdminDomain, profile.emails[0]))
      && (r.Accepted? ==> r.user == AdminUser(profile.emails[0]))
      && (r.Rejected? ==> r.message == AdminRejection)
  {
    if profile.emails == [] then VerifyError
    else
      var email := profile.emails[0];
      if IsSuffix(AdminDomain, email) then Accepted(AdminUser(email))
      else Rejected(AdminRejection)
  }

  /** The suffix test does not look at the `@`: an address at another domain that ends
      in the same letters is accepted. */
  lemma SuffixNotDomain()
    ensures VerifyAdmin(Profile(None, ["x@nothylo.com"], None, None, map[])).Accepted?
    ensures VerifyAdmin(Profile(None, ["a@hylo.com.evil"], None, None, map[])).Rejected?
  {
    assert "x@nothylo.com"[5..] == AdminDomain;
    assert "a@hylo.com.evil"[7..] != AdminDomain by {
      assert "a@hylo.com.evil"[7..][0] == 'c' && AdminDomain[0] == 'h';
    }
  }

  /** Only the first email matters: any later emails can be changed freely. */
  lemma OnlyFirstEmail(profile: Profile, rest: seq<string>)
    requires profile.emails != []
    ensures VerifyAdmin(profile.(emails := [profile.emails[0]] + rest)) == VerifyAdmin(profile)
    ensures FormatProfile(profile.(emails := [profile.emails[0]] + rest)).Success?
  {
  }

  /** `formatProfile(profile)`: `name` from `displayName`, `email` from the first email,
      every other field kept. */
  function FormatProfile(profile: Profile): (r: Result<Profile, string>)
    ensures profile.emails == [] <==> r.Failure?
    ensures r.Success? ==>
      && r.value.name == profile.displayName
      && r.value.email == Some(profile.emails[0])
      && r.value.displayName == profile.displayName
      && r.value.emails == profile.emails
      && r.value.others == profile.others
  {
    if profile.emails == [] then Failure("Cannot read property 'value' of undefined")
    else Success(profile.(name := profile.displayName, email := Some(profile.emails[0])))
  }

  /** `url(path)`: the configured protocol and domain, then the path. */
  function Url(protocol: string, domain: string, path: string): (r: string)
    ensures IsPrefix(protocol + "://" + domain, r)
    ensures IsSuffix(path, r)
    ensures |r| == |protocol| + 3 + |domain| + |path|
  {
    var r := protocol + "://" + domain + path;
    assert r[..|protocol + "://" + domain|] == protocol + "://" + domain;
    assert r[|r| - |path|..] == path;
    r
  }

  /** Two callback URLs are equal exactly when their paths are. */
  lemma UrlInjective(protocol: string, domain: string, p1: string, p2: string)
    ensures Url(protocol, domain, p1) == Url(protocol, domain, p2) <==> p1 == p2
  {
    var n := |protocol| + 3 + |domain|;
    assert p1 == Url(protocol, domain, p1)[n..];
    assert p2 == Url(protocol, domain, p2)[n..];
  }

  /** The four provider callback URLs are distinct. */
  lemma CallbackUrlsDistinct(protocol: string, domain: string)
    ensures var urls := [Url(protocol, domain, "/admin/login/oauth"), Url(protocol, domain, "/noo/login/google/oauth"),
                         Url(protocol, domain, "/noo/login/facebook/oauth"), Url(protocol, domain, "/noo/login/linkedin/oauth")];
      forall i, j :: 0 <= i < j < 4 ==> urls[i] != urls[j]
  {
    var paths := ["/admin/login/oauth", "/noo/login/google/oauth", "/noo/login/facebook/oauth", "/noo/login/linkedin/oauth"];
    forall i, j | 0 <= i < j < 4
      ensures Url(protocol, domain, paths[i]) != Url(protocol, domain, paths[j])
    {
      UrlInjective(protocol, domain, paths[i], paths[j]);
    }
  }

  /** `serializeUser`: the session stores the admin user itself. */
  function SerializeUser(user: AdminUser): (stored: AdminUser)
    ensures stored == user
  {
    user
  }

  /** `deserializeUser`: the stored value is the user. */
  function DeserializeUser(stored: AdminUser): (user: AdminUser)
    ensures user == stored
  {
    stored
  }

  /** A user survives the session round trip unchanged. */
  lemma SessionRoundTrip(user: AdminUser)
    ensures DeserializeUser(SerializeUser(user)) == user
    ensures SerializeUser(DeserializeUser(user)) == user
  {
  }
}

=== FILE: project_policy.dfy ===
/** The `checkAndSetProject` request policy: who may see a project. */
module ProjectPolicy {
  import opened Wrappers

  datatype Project = Project(id: nat, creatorId: nat, communityId: nat, isDraft: bool, isPublic: bool)

  /** The membership rows the policy may look up. */
  datatype Memberships = Memberships(
    contributors: set<(nat, nat)>,   // (user, project): ProjectMembership rows
    members: set<(nat, nat)>)        // (user, community): Membership rows

  /** Which membership table the policy consulted. */
  datatype Lookup = NoLookup | ContributorLookup | CommunityLookup

  /** Continue with the project stored for the handler; answer forbidden with the debug
      message logged; or the server error of a request for a missing project. */
  datatype Verdict = Pass(project: Project) | Forbidden(log: string) | ServerError

  datatype Outcome = Outcome(verdict: Verdict, lookup: Lookup)

  /** The decision for `userId` asking for the project found (or not) by id. */
  function CheckAndSetProject(userId: nat, found: Option<Project>, db: Memberships): (r: Outcome)
    ensures found.None? ==> r.verdict == ServerError && r.lookup == NoLookup
    ensures found.Some? ==> var p := found.value;
      && (r.verdict.Pass? ==> r.verdict.project == p)
      && !r.verdict.ServerError?
      && (userId == p.creatorId ==> r == Outcome(Pass(p), NoLookup))
      && (userId != p.creatorId && p.isDraft ==>
            && r.lookup == ContributorLookup && (r.verdict.Pass? <==> (userId, p.id) in db.contributors)
            && (!r.verdict.Pass? ==> r.verdict == Forbidden("not a contributor")))
      && (userId != p.creatorId && !p.isDraft && p.isPublic ==> r == Outcome(Pass(p), NoLookup))
      && (userId != p.creatorId && !p.isDraft && !p.isPublic ==>
            && r.lookup == CommunityLookup && (r.verdict.Pass? <==> (userId, p.communityId) in db.members)
            && (!r.verdict.Pass? ==> r.verdict == Forbidden("not in community")))
  {
    match found
    case None => Outcome(ServerError, NoLookup)
    case Some(p) =>
      if userId == p.creatorId then Outcome(Pass(p), NoLookup)
      else if p.isDraft then
        Outcome(if (userId, p.id) in db.contributors then Pass(p) else Forbidden("not a contributor"),
                ContributorLookup)
      else if p.isPublic then Outcome(Pass(p), NoLookup)
      else
        Outcome(if (userId, p.communityId) in db.members then Pass(p) else Forbidden("not in community"),
                CommunityLookup)
  }

  /** Whether a request is let through to the handler. */
  predicate Allowed(userId: nat, p: Project, db: Memberships) {
    CheckAndSetProject(userId, Some(p), db).verdict.Pass?
  }

  /** The draft test comes first: a public draft still needs a contributor membership,
      and a community membership does not help. */
  lemma DraftBeforePublic(userId: nat, p: Project, db: Memberships)
    requires userId != p.creatorId && p.isDraft && p.isPublic
    ensures Allowed(userId, p, db) <==> (userId, p.id) in db.contributors
  {
  }

  /** The creator is let through whatever the draft and public flags and memberships say. */
  lemma CreatorAlwaysPasses(userId: nat, p: Project, db: Memberships)
    requires userId == p.creatorId
    ensures forall d: bool, q: bool :: Allowed(userId, p.(isDraft := d, isPublic := q), db)
  {
  }

  /** Access as one closed formula: the policy allows exactly the creator, a contributor
      of a draft, anyone for a published public project, and a community member for a
      published private one. */
  lemma AllowedCharacterised(userId: nat, p: Project, db: Memberships)
    ensures Allowed(userId, p, db) <==>
      || userId == p.creatorId
      || (p.isDraft && (userId, p.id) in db.contributors)
      || (!p.isDraft && p.isPublic)
      || (!p.isDraft && (userId, p.communityId) in db.members)
  {
  }
}

=== FILE: recipients.dfy ===
/** The list-set arithmetic of comment creation (lodash `_.without`, `_.difference`,
    `concat`) and the two recipient lists and the new-follower list built from it. User
    ids are lists, not sets: order and repetitions are kept as lodash keeps them. */
module Recipients {

  /** Number of occurrences of `x` in `xs`. */
  function Count(xs: seq<nat>, x: nat): (n: nat)
    ensures n > 0 <==> x in xs
    ensures n <= |xs|
  {
    if xs == [] then 0
    else
      var init := xs[..|xs| - 1];
      assert xs == init + [xs[|xs| - 1]];
      Count(init, x) + (if xs[|xs| - 1] == x then 1 else 0)
  }

  /** Every user occurs at most once. */
  ghost predicate NoDuplicates(xs: seq<nat>) {
    forall x :: Count(xs, x) <= 1
  }

  lemma CountAppend(xs: seq<nat>, y: nat, x: nat)
    ensures Count(xs + [y], x) == Count(xs, x) + (if y == x then 1 else 0)
  {
    assert (xs + [y])[..|xs|] == xs;
  }

  /** `_.difference(xs, ys)`: the elements of `xs` not in `ys`, in their order, each kept
      as often as it occurs in `xs`. */
  function Difference(xs: seq<nat>, ys: seq<nat>): (r: seq<nat>)
    ensures forall y :: Count(r, y) == if y in ys then 0 else Count(xs, y)
    ensures forall y :: y in r <==> y in xs && y !in ys
    ensures |r| <= |xs|
  {
    if xs == [] then []
    else
      var init, last := xs[..|xs| - 1], xs[|xs| - 1];
      var rest := Difference(init, ys);
      assert xs == init + [last];
      var r := if last in ys then rest else rest + [last];
      assert forall y :: Count(xs, y) == Count(init, y) + (if last == y then 1 else 0) by {
        forall y { CountAppend(init, last, y); }
      }
      assert forall y :: Count(r, y) == if y in ys then 0 else Count(xs, y) by {
        forall y { CountAppend(rest, last, y); }
      }
      r
  }

  /** `_.without(xs, x)`: `xs` with every occurrence of `x` removed. */
  function Without(xs: seq<nat>, x: nat): (r: seq<nat>)
    ensures forall y :: Count(r, y) == if y == x then 0 else Count(xs, y)
    ensures forall y :: y in r <==> y in xs && y != x
  {
    Difference(xs, [x])
  }

  /** The followers who get the default comment notification: the existing followers
      minus the commenter, minus everyone mentioned. */
  function DefaultRecipients(existing: seq<nat>, commenter: nat, mentioned: seq<nat>): (r: seq<nat>)
    ensures forall y :: y in r <==> y in existing && y != commenter && y !in mentioned
    ensures forall y :: Count(r, y) == if y == commenter || y in mentioned then 0 else Count(existing, y)
    ensures commenter !in r
  {
    Difference(Without(existing, commenter), mentioned)
  }

  /** The users to add as followers: the mentioned users and the commenter, minus those
      already following. */
  function NewFollowers(existing: seq<nat>, commenter: nat, mentioned: seq<nat>): (r: seq<nat>)
    ensures forall y :: y in r <==> (y in mentioned || y == commenter) && y !in existing
    ensures forall y :: y in mentioned || y == commenter ==> y in existing + r
    ensures forall y :: y in existing ==> Count(existing + r, y) == Count(existing, y)
    ensures forall y :: Count(r, y) == if y in existing then 0 else Count(mentioned + [commenter], y)
  {
    var r := Difference(mentioned + [commenter], existing);
    forall y | y in existing ensures Count(existing + r, y) == Count(existing, y) {
      CountConcat(existing, r, y);
    }
    r
  }

  /** With duplicate-free follower and mention lists, a user is notified once when mentioned
      or following (and not the commenter), and otherwise not at all; never by both kinds. */
  lemma NotifiedOnce(existing: seq<nat>, commenter: nat, mentioned: seq<nat>, y: nat)
    requires NoDuplicates(existing) && NoDuplicates(mentioned)
    ensures Count(mentioned, y) + Count(DefaultRecipients(existing, commenter, mentioned), y)
            == if y in mentioned || (y in existing && y != commenter) then 1 else 0
    ensures !(y in mentioned && y in DefaultRecipients(existing, commenter, mentioned))
  {
    assert Count(existing, y) <= 1 && Count(mentioned, y) <= 1;
  }

  /** The commenter never gets a default notification, even when following the post; the
      default and mention lists never share a user. */
  lemma RecipientsDisjoint(existing: seq<nat>, commenter: nat, mentioned: seq<nat>)
    ensures commenter !in DefaultRecipients(existing, commenter, mentioned)
    ensures forall y :: y in mentioned ==> y !in DefaultRecipients(existing, commenter, mentioned)
    ensures forall y :: y in existing && y != commenter ==>
              y in mentioned || y in DefaultRecipients(existing, commenter, mentioned)
  {
  }

  /** Adding the new followers keeps a duplicate-free follower list duplicate-free, as long
      as the mention list is duplicate-free and does not name the commenter. */
  lemma NewFollowersNoDuplicates(existing: seq<nat>, commenter: nat, mentioned: seq<nat>)
    requires NoDuplicates(existing) && NoDuplicates(mentioned) && commenter !in mentioned
    ensures NoDuplicates(existing + NewFollowers(existing, commenter, mentioned))
  {
    var r := NewFollowers(existing, commenter, mentioned);
    forall y ensures Count(existing + r, y) <= 1 {
      if y in existing {
      } else {
        CountConcat(existing, r, y);
        CountAppend(mentioned, commenter, y);
      }
    }
  }

  lemma {:induction false} CountConcat(xs: seq<nat>, ys: seq<nat>, x: nat)
    ensures Count(xs + ys, x) == Count(xs, x) + Count(ys, x)
    decreases |ys|
  {
    if ys != [] {
      var init := ys[..|ys| - 1];
      assert xs + ys == (xs + init) + [ys[|ys| - 1]];
      assert ys == init + [ys[|ys| - 1]];
      CountAppend(xs + init, ys[|ys| - 1], x);
      CountAppend(init, ys[|ys| - 1], x);
      CountConcat(xs, init, x);
    } else {
      assert xs + ys == xs;
    }
  }
}

=== FILE: reply_address.dfy ===
/** The reply-by-email address codec of the Email service: a post id and a user id,
    salted and encrypted, wrapped as `reply-<cipher>@<domain>`, and the decoder that
    recovers them from an inbound `To` header. */
module ReplyAddress {
  import opened Wrappers
  import opened Strings

  /** The deployment settings the codec reads from the environment (the salt and the
      mail domain) and the encryption library it calls, passed in explicitly. A
      decryption that throws is `None`. */
  datatype Config = Config(
    salt: string,
    domain: string,
    encrypt: string -> string,
    decrypt: string -> Option<string>)

  /** Decryption undoes encryption. */
  ghost predicate CipherInverse(cfg: Config) {
    forall x :: cfg.decrypt(cfg.encrypt(x)) == Some(x)
  }

  const ReplyPrefix: string := "reply-"

  /** The characters the regular-expression `.` does not match. */
  predicate IsLineTerminator(c: char) {
    c == '\n' || c == '\r' || c == '\U{2028}' || c == '\U{2029}'
  }

  /** A ciphertext that survives being embedded in an address: it can neither end
      the local part early nor break the `.` of the decoding pattern. */
  predicate CipherSafe(cipher: string) {
    forall k :: 0 <= k < |cipher| ==> cipher[k] != '@' && !IsLineTerminator(cipher[k])
  }

  /** The plaintext that is encrypted: salt, post id, `|`, user id. */
  function Plaintext(salt: string, postId: string, userId: string): (p: string)
    ensures IsPrefix(salt, p) && p[|salt|..] == postId + ['|'] + userId
  {
    salt + postId + "|" + userId
  }

  /** `postReplyAddress(postId, userId)`. */
  function PostReplyAddress(cfg: Config, postId: string, userId: string): (address: string)
    ensures var cipher := cfg.encrypt(Plaintext(cfg.salt, postId, userId));
      var n := |ReplyPrefix| + |cipher|;
      && |address| == n + 1 + |cfg.domain|
      && address[..|ReplyPrefix|] == ReplyPrefix
      && address[|ReplyPrefix|..n] == cipher
      && address[n] == '@'
      && address[n + 1..] == cfg.domain
    ensures var cipher := cfg.encrypt(Plaintext(cfg.salt, postId, userId));
      CipherSafe(cipher) ==>
        && FindReplyMatch(address, 0) == Some(Match(0, |ReplyPrefix| + |cipher|))
        && Capture(address, Match(0, |ReplyPrefix| + |cipher|)) == cipher
  {
    var cipher := cfg.encrypt(Plaintext(cfg.salt, postId, userId));
    WrappedCipherMatches(cipher, cfg.domain);
    var address := ReplyPrefix + cipher + "@" + cfg.domain;
    assert address[|ReplyPrefix|..|ReplyPrefix| + |cipher|] == cipher;
    assert address[|ReplyPrefix| + |cipher| + 1..] == cfg.domain;
    address
  }

  /** The pattern finds a safe ciphertext wrapped as a reply address. */
  lemma WrappedCipherMatches(cipher: string, domain: string)
    ensures CipherSafe(cipher) ==>
      FindReplyMatch(ReplyPrefix + cipher + "@" + domain, 0) == Some(Match(0, |ReplyPrefix| + |cipher|))
  {
    var address := ReplyPrefix + cipher + "@" + domain;
    if CipherSafe(cipher) {
      assert address[..|ReplyPrefix|] == ReplyPrefix;
      assert AtEnds(address, |ReplyPrefix|, |ReplyPrefix| + |cipher|) by {
        forall k | |ReplyPrefix| <= k < |ReplyPrefix| + |cipher|
          ensures address[k] != '@' && !IsLineTerminator(address[k])
        {
          assert address[k] == cipher[k - |ReplyPrefix|];
        }
      }
      LazyFindsFirstAt(address, |ReplyPrefix|, |ReplyPrefix| + |cipher|);
    }
  }

  // ---------------------------------------------------------------------------
  // The pattern /reply-(.*?)@/

  /** No `@` and no line terminator in `s[j..k]`. */
  predicate Clean(s: string, j: nat, k: nat)
    requires j <= k <= |s|
  {
    forall m :: j <= m < k ==> s[m] != '@' && !IsLineTerminator(s[m])
  }

  /** `s[k]` is the `@` that the lazy `(.*?)@` started at `j` stops at. */
  predicate AtEnds(s: string, j: nat, k: nat) {
    j <= k < |s| && s[k] == '@' && Clean(s, j, k)
  }

  /** The lazy group `(.*?)@` tried from position `j`: the index of the `@` that ends it. */
  function LazyUntilAt(s: string, j: nat): (r: Option<nat>)
    requires j <= |s|
    ensures r.Some? ==> AtEnds(s, j, r.value)
    ensures r.None? ==> forall k :: !AtEnds(s, j, k)
    decreases |s| - j
  {
    if j == |s| then None
    else if s[j] == '@' then Some(j)
    else if IsLineTerminator(s[j]) then None
    else
      assert forall k :: AtEnds(s, j, k) ==> AtEnds(s, j + 1, k);
      LazyUntilAt(s, j + 1)
  }

  /** `reply-` occurs in `s` at `i`. */
  predicate PrefixAt(s: string, i: nat) {
    i + |ReplyPrefix| <= |s| && s[i..i + |ReplyPrefix|] == ReplyPrefix
  }

  /** Whether the whole pattern matches with `reply-` starting at `i`. */
  predicate MatchesAt(s: string, i: nat) {
    PrefixAt(s, i) && LazyUntilAt(s, i + |ReplyPrefix|).Some?
  }

  /** A match: `reply-` starts at `start`, the `@` is at `end`; the group is in between. */
  datatype Match = Match(start: nat, end: nat)

  /** `s.match(/reply-(.*?)@/)` searching from `i`: the leftmost match. */
  function FindReplyMatch(s: string, i: nat): (r: Option<Match>)
    requires i <= |s|
    ensures r.Some? ==>
              && i <= r.value.start && MatchesAt(s, r.value.start)
              && LazyUntilAt(s, r.value.start + |ReplyPrefix|) == Some(r.value.end)
              && (forall i' :: i <= i' < r.value.start ==> !MatchesAt(s, i'))
    ensures r.None? ==> forall i' :: i <= i' ==> !MatchesAt(s, i')
    decreases |s| - i
  {
    if MatchesAt(s, i) then Some(Match(i, LazyUntilAt(s, i + |ReplyPrefix|).value))
    else if i == |s| then None
    else FindReplyMatch(s, i + 1)
  }

  /** `match[1]`: the text the group captured, between `reply-` and the `@`. */
  function Capture(s: string, m: Match): (r: string)
    ensures PrefixAt(s, m.start) && AtEnds(s, m.start + |ReplyPrefix|, m.end) ==>
      && s[m.start..m.end + 1] == ReplyPrefix + r + "@"
      && '@' !in r
      && forall k :: 0 <= k < |r| ==> !IsLineTerminator(r[k])
  {
    if m.start + |ReplyPrefix| <= m.end <= |s| then
      var r := s[m.start + |ReplyPrefix|..m.end];
      assert forall k :: 0 <= k < |r| ==> r[k] == s[m.start + |ReplyPrefix| + k];
      r
    else []
  }

  /** The lazy group stops at the first `@` it can reach. */
  lemma LazyFindsFirstAt(s: string, j: nat, k: nat)
    requires AtEnds(s, j, k)
    ensures LazyUntilAt(s, j) == Some(k)
  {
  }

  /** Without line terminators, every `@` after `j` lets the lazy group succeed. */
  lemma {:induction false} LazySucceedsBeforeAt(s: string, j: nat, k: nat)
    requires j <= k < |s| && s[k] == '@'
    requires forall m :: j <= m < k ==> !IsLineTerminator(s[m])
    ensures LazyUntilAt(s, j).Some?
    decreases k - j
  {
    if s[j] != '@' {
      LazySucceedsBeforeAt(s, j + 1, k);
    }
  }

  /** On an address free of line terminators the decoder's capture runs from the first
      `reply-` in the address to the next `@`. */
  lemma FirstReplyWins(s: string)
    requires forall m :: 0 <= m < |s| ==> !IsLineTerminator(s[m])
    requires FindReplyMatch(s, 0).Some?
    ensures var m := FindReplyMatch(s, 0).value;
      && (forall i :: 0 <= i < m.start ==> !PrefixAt(s, i))
      && AtEnds(s, m.start + |ReplyPrefix|, m.end)
  {
    var m := FindReplyMatch(s, 0).value;
    assert AtEnds(s, m.start + |ReplyPrefix|, m.end);
    forall i | 0 <= i < m.start
      ensures !PrefixAt(s, i)
    {
      assert !MatchesAt(s, i);
      LazySucceedsBeforeAt(s, i + |ReplyPrefix|, m.end);
    }
  }

  // ---------------------------------------------------------------------------
  // Decoding

  /** `.replace(new RegExp('^' + salt), '')`, for a salt without pattern metacharacters. */
  function StripSalt(salt: string, plaintext: string): (r: string)
    ensures IsPrefix(salt, plaintext) ==> salt + r == plaintext
    ensures !IsPrefix(salt, plaintext) ==> r == plaintext
  {
    if IsPrefix(salt, plaintext) then
      assert plaintext == plaintext[..|salt|] + plaintext[|salt|..];
      plaintext[|salt|..]
    else plaintext
  }

  /** What the decoder returns: `ids[1]` is `undefined` when there was no `|`. */
  datatype ReplyData = ReplyData(postId: string, userId: Option<string>)

  /** Reading `match[1]` of a failed match, or a decryption that throws. */
  datatype DecodeError = NoReplyMatch | Undecryptable

  /** The plaintext the decoder recovers, or why it cannot. */
  function RecoveredPlaintext(cfg: Config, address: string): (r: Result<string, DecodeError>)
    ensures r == Failure(NoReplyMatch) <==> FindReplyMatch(address, 0).None?
    ensures FindReplyMatch(address, 0).Some? ==>
      var cipher := Capture(address, FindReplyMatch(address, 0).value);
      && (r == Failure(Undecryptable) <==> cfg.decrypt(cipher).None?)
      && (r.Success? ==> cfg.decrypt(cipher).Some? && r.value == StripSalt(cfg.salt, cfg.decrypt(cipher).value))
  {
    match FindReplyMatch(address, 0)
    case None => Failure(NoReplyMatch)
    case Some(m) =>
      match cfg.decrypt(Capture(address, m))
      case None => Failure(Undecryptable)
      case Some(p) => Success(StripSalt(cfg.salt, p))
  }

  /** `decodePostReplyAddress(address)`. */
  function DecodePostReplyAddress(cfg: Config, address: string): (r: Result<ReplyData, DecodeError>)
    ensures r == Failure(NoReplyMatch) <==> forall i :: 0 <= i ==> !MatchesAt(address, i)
    ensures r.Success? <==> RecoveredPlaintext(cfg, address).Success?
    ensures r.Failure? ==> r.error == RecoveredPlaintext(cfg, address).error
    ensures r.Success? ==> var p := RecoveredPlaintext(cfg, address).value;
      && '|' !in r.value.postId
      && (r.value.userId.None? <==> '|' !in p)
      && ('|' !in p ==> r.value.postId == p)
      && ('|' in p ==> r.value.postId == p[..IndexOf(p, '|')])
      && (r.value.userId.Some? ==> '|' !in r.value.userId.value)
      && ('|' in p ==> var rest := p[IndexOf(p, '|') + 1..];
            r.value.userId == Some(if '|' in rest then rest[..IndexOf(rest, '|')] else rest))
  {
    match RecoveredPlaintext(cfg, address)
    case Failure(e) => Failure(e)
    case Success(p) =>
      var ids := Split(p, '|');
      SplitFirst(p, '|');
      SeparatorCounted(p, '|');
      SplitSecond(p, '|');
      Success(ReplyData(ids[0], if |ids| > 1 then Some(ids[1]) else None))
  }

  /** A string holds the separator exactly when its count is positive. */
  lemma SeparatorCounted(s: string, c: char)
    ensures c in s <==> CountChar(s, c) > 0
  {
    if c in s {
      CountSplitAt(s, c, IndexOf(s, c));
    } else {
      NoSeparatorNoCount(s, c);
    }
  }

  /** Decoding an address made by `PostReplyAddress` gives back both ids, provided
      decryption undoes encryption, the ciphertext has no `@` or line terminator,
      and neither id contains `|`. */
  lemma RoundTrip(cfg: Config, postId: string, userId: string)
    requires CipherInverse(cfg)
    requires CipherSafe(cfg.encrypt(Plaintext(cfg.salt, postId, userId)))
    requires '|' !in postId && '|' !in userId
    ensures DecodePostReplyAddress(cfg, PostReplyAddress(cfg, postId, userId))
            == Success(ReplyData(postId, Some(userId)))
  {
    var plain := Plaintext(cfg.salt, postId, userId);
    var cipher := cfg.encrypt(plain);
    var address := PostReplyAddress(cfg, postId, userId);
    var m := Match(0, |ReplyPrefix| + |cipher|);
    assert Capture(address, m) == cipher;
    assert cfg.decrypt(cipher) == Some(plain);
    assert IsPrefix(cfg.salt, plain) by { assert plain[..|cfg.salt|] == cfg.salt; }
    assert StripSalt(cfg.salt, plain) == postId + ['|'] + userId;
    SplitPair(postId, userId, '|');
  }

  /** An address the pattern does not match is rejected, never partially decoded. */
  lemma NoMatchFails(cfg: Config, address: string)
    requires forall i :: 0 <= i <= |address| ==> !MatchesAt(address, i)
    ensures DecodePostReplyAddress(cfg, address) == Failure(NoReplyMatch)
  {
  }

  // ---------------------------------------------------------------------------
  // Numeric ids, as `%s` renders them

  /** The decimal rendering of a natural number: digits that spell `n`. */
  function Decimal(n: nat): (s: string)
    ensures |s| >= 1
    ensures forall k :: 0 <= k < |s| ==> '0' <= s[k] <= '9'
    ensures DecimalValue(s) == n
    ensures s[0] == '0' ==> n == 0 && |s| == 1
  {
    if n < 10 then
      assert [Digit(n)][..0] == [];
      [Digit(n)]
    else
      var s := Decimal(n / 10) + [Digit(n % 10)];
      assert s[..|s| - 1] == Decimal(n / 10);
      s
  }

  /** The number a string of decimal digits spells, most significant digit first. */
  function DecimalValue(s: string): nat
    requires forall k :: 0 <= k < |s| ==> '0' <= s[k] <= '9'
  {
    if s == [] then 0
    else DecimalValue(s[..|s| - 1]) * 10 + (s[|s| - 1] as int - '0' as int)
  }

  function Digit(d: nat): (c: char)
    requires d < 10
    ensures c as int == '0' as int + d
  {
    "0123456789"[d]
  }

  /** `%s` of 42 and of 7. */
  lemma DecimalExamples()
    ensures Decimal(42) == "42" && Decimal(7) == "7"
  {
  }

  /** The round trip for ids that are numbers: decoding the address for post 42 and
      user 7 gives back the strings "42" and "7". */
  lemma RoundTripNumericIds(cfg: Config, postId: nat, userId: nat)
    requires CipherInverse(cfg)
    requires CipherSafe(cfg.encrypt(Plaintext(cfg.salt, Decimal(postId), Decimal(userId))))
    ensures DecodePostReplyAddress(cfg, PostReplyAddress(cfg, Decimal(postId), Decimal(userId)))
            == Success(ReplyData(Decimal(postId), Some(Decimal(userId))))
  {
    var p, u := Decimal(postId), Decimal(userId);
    assert '|' !in p;
    assert '|' !in u;
    RoundTrip(cfg, p, u);
  }

  /** The concrete instance: the address for post 42 and user 7 decodes to "42" and "7". */
  lemma RoundTripPost42User7(cfg: Config)
    requires CipherInverse(cfg)
    requires CipherSafe(cfg.encrypt(Plaintext(cfg.salt, "42", "7")))
    ensures DecodePostReplyAddress(cfg, PostReplyAddress(cfg, "42", "7")) == Success(ReplyData("42", Some("7")))
  {
    DecimalExamples();
    RoundTripNumericIds(cfg, 42, 7);
  }
}

=== FILE: strings.dfy ===
/** The JavaScript string operations the system relies on: prefix and suffix tests,
    `indexOf` of a character and `split` on a one-character separator. */
module Strings {

  predicate IsPrefix(p: string, s: string) {
    |p| <= |s| && s[..|p|] == p
  }

  predicate IsSuffix(x: string, s: string) {
    |x| <= |s| && s[|s| - |x|..] == x
  }

  /** Index of the first occurrence of `c` in `s`. */
  function IndexOf(s: string, c: char): (i: nat)
    requires c in s
    ensures i < |s| && s[i] == c
    ensures c !in s[..i]
  {
    if s[0] == c then 0
    else
      var j := IndexOf(s[1..], c);
      assert s[..j + 1] == [s[0]] + s[1..][..j];
      j + 1
  }

  /** Number of occurrences of `c` in `s`. */
  function CountChar(s: string, c: char): nat {
    if s == [] then 0 else (if s[0] == c then 1 else 0) + CountChar(s[1..], c)
  }

  /** The inverse of `Split`: the parts glued back together with the separator. */
  function Join(parts: seq<string>, sep: char): string
    requires |parts| >= 1
  {
    if |parts| == 1 then parts[0] else parts[0] + [sep] + Join(parts[1..], sep)
  }

  /** `s.split(sep)`: the maximal separator-free pieces of `s`, in order; an empty
      string gives one empty piece. */
  function Split(s: string, sep: char): (parts: seq<string>)
    ensures |parts| == CountChar(s, sep) + 1
    ensures forall k :: 0 <= k < |parts| ==> sep !in parts[k]
    ensures Join(parts, sep) == s
    decreases |s|
  {
    if sep !in s then
      NoSeparatorNoCount(s, sep);
      [s]
    else
      var i := IndexOf(s, sep);
      var rest := Split(s[i + 1..], sep);
      CountSplitAt(s, sep, i);
      SplitAtFirst(s, sep, i, rest);
      [s[..i]] + rest
  }

  /** Cutting `s` at its first separator `i` and gluing the pieces of what follows
      keeps the pieces separator-free and joins back to `s`. */
  lemma SplitAtFirst(s: string, sep: char, i: nat, rest: seq<string>)
    requires i < |s| && s[i] == sep && sep !in s[..i]
    requires |rest| >= 1 && Join(rest, sep) == s[i + 1..]
    requires forall k :: 0 <= k < |rest| ==> sep !in rest[k]
    ensures forall k :: 0 <= k < |rest| + 1 ==> sep !in ([s[..i]] + rest)[k]
    ensures Join([s[..i]] + rest, sep) == s
  {
    var parts := [s[..i]] + rest;
    assert parts[1..] == rest;
    assert s == s[..i] + [sep] + s[i + 1..];
    forall k | 0 <= k < |parts| ensures sep !in parts[k] {
      if k > 0 { assert parts[k] == rest[k - 1]; }
    }
  }

  lemma {:induction false} NoSeparatorNoCount(s: string, c: char)
    requires c !in s
    ensures CountChar(s, c) == 0
  {
    if s != [] {
      assert c !in s[1..];
      NoSeparatorNoCount(s[1..], c);
    }
  }

  /** Counting across the first occurrence of the separator. */
  lemma {:induction false} CountSplitAt(s: string, c: char, i: nat)
    requires i < |s| && s[i] == c && c !in s[..i]
    ensures CountChar(s, c) == 1 + CountChar(s[i + 1..], c)
  {
    if i > 0 {
      assert s[1..][..i - 1] == s[1..i];
      assert c !in s[1..][..i - 1] by {
        forall k | 0 <= k < i - 1 ensures s[1..][k] != c { assert s[1..][k] == s[..i][k + 1]; }
      }
      assert s[0] == s[..i][0];
      CountSplitAt(s[1..], c, i - 1);
      assert s[1..][i..] == s[i + 1..];
    }
  }

  /** The first piece of a split is the text before the first separator (or all of it). */
  lemma SplitFirst(s: string, sep: char)
    ensures sep in s ==> Split(s, sep)[0] == s[..IndexOf(s, sep)]
    ensures sep !in s ==> Split(s, sep) == [s]
  {
  }

  /** The second piece of a split is the text between the first and the second
      separator, or everything after the first when there is no second. */
  lemma {:induction false} SplitSecond(s: string, sep: char)
    ensures sep in s ==> var rest := s[IndexOf(s, sep) + 1..];
      |Split(s, sep)| >= 2
      && Split(s, sep)[1] == if sep in rest then rest[..IndexOf(rest, sep)] else rest
  {
    if sep in s {
      var rest := s[IndexOf(s, sep) + 1..];
      assert Split(s, sep) == [s[..IndexOf(s, sep)]] + Split(rest, sep);
      SplitFirst(rest, sep);
    }
  }

  /** Splitting text that holds exactly one separator gives back the two sides. */
  lemma {:induction false} SplitPair(a: string, b: string, sep: char)
    requires sep !in a && sep !in b
    ensures Split(a + [sep] + b, sep) == [a, b]
  {
    var s := a + [sep] + b;
    assert s[|a|] == sep;
    var i := IndexOf(s, sep);
    assert i == |a|;
    assert s[..i] == a;
    assert s[i + 1..] == b;
  }
}

=== FILE: wrappers.dfy ===
/** Option and Result, used for the JavaScript `undefined`/`null` values and thrown errors of the system. */
module Wrappers {

  datatype Option<+T> = None | Some(value: T)

  datatype Result<+R, +E> = Success(value: R) | Failure(error: E)
}
